=== FILE: README.md ===
# TOON conversion pipeline — Dafny model

This project models the core of `servers/toon_mcp.py`, an MCP tool server that
turns JSON-like data into TOON text and reports how many tokens that saves.
The core has two parts.

1. **`make_json_safe`** rewrites an arbitrary Python value tree into a JSON-safe
   one. Dict keys become `str(k)`, lists and tuples become lists, sets become
   lists sorted by `str`, objects whose `__dict__` is a dict are flattened to
   their attribute dict, JSON scalars pass through, and anything else becomes
   `str(obj)`.
2. **`toon_with_stats`** serializes the normalized value, runs the external
   converter, and builds the report. On failure the report is a fenced
   `error` block that still carries the JSON text. On success it is a fenced
   `toon` block followed by a "# Token Savings" section. `count_tokens` gives
   either a count or the sentinel -1.

Modules, one per concept:

- `Values` (values.dfy): `PyValue`, the Python value tree (dict, list, tuple,
  set, object with attributes, str, int, bool, None, opaque), and `JsonValue`.
  It also holds Python's `str` (`Show`, `KeyStr`) and `WellFormed`, which says
  that every object has each key once. `Embed` reads a JSON value back as the
  Python value it is.
- `Dicts` (dicts.dfy): a dict comprehension with string keys, as an
  insertion-ordered association list. Assigning to an existing key replaces
  its value in place.
- `Sorting` (sorting.dfy): `sorted(xs, key=...)` as a stable insertion sort.
  `Strings.Le` orders the keys by code point, as Python compares `str`.
- `Normalize` (normalize.dfy): `MakeJsonSafe` and its properties.
- `Tokens` (tokens.dfy): `count_tokens` over an optional tokenizer.
- `Report` (report.dfy): the conversion outcome, the savings arithmetic and
  the report text. It also has `ReadCounts`, which reads the counts back out
  of a savings section.
- `Pipeline` (pipeline.dfy): `toon_with_stats` and `to_toon_from_string`.
- `Strings`, `Decimal` and `Basics` are helpers. They hold substring search,
  Python's string ordering, `str` of an int with a reader for it, and
  `Option`/`Result`.

Collaborators the code calls out to are parameters. These are `json.dumps`,
the converter run, the tokenizer, the `.1f` float rendering and `json.loads`.
Python's `str` of a container, or of a dict key that is a container or an object, is a
field of the `Printer` parameter. `str` of a string, int, bool or None, and of
any other value without a `__dict__`, is written out.

Facts about the code that the model keeps:

- Savings numbers are shown only when both counts are **greater than zero**.
  A count of 0 also gives "(unavailable)", not only the -1 sentinel.
- The error block's detail line is `TOON CLI failed:` or
  `TOON subprocess error:`, followed by the stderr or fault text.
- A set is deterministic only when its normalized elements have pairwise
  distinct `str`. `sorted` is stable, so elements whose `str` is equal keep
  the set's iteration order: `{1, "1"}` can come out either way. See
  `Normalize.SetTieFollowsIterationOrder`.
- Lines 77-78 (normalize, serialize) lie outside the `try`. A fault raised
  there would propagate to the caller and would not become an error report.
  In this model normalization is total, so no such fault arises; "## Left out"
  lists the faults the code can raise there.
- An error report contains the text "# Token Savings" if the stderr, the
  fault text or the JSON text contains it. The fixed parts of the report
  never produce it.

## Model

| member | source | states |
|---|---|---|
| `Normalize.MakeJsonSafe` | servers/toon_mcp.py:44-61 | defined on every value tree of the model (the paths where the code raises are listed under "## Left out"), and the result is JSON-safe at every depth: each object has each string key once |
| `Normalize.ScalarKeyStr` | servers/toon_mcp.py:50-54 | a dict key that is a str, int, bool, None or any other value without a `__dict__` gets the same `str` as its normalized value, so `str(k)` at line 50 agrees with the sort key `str(x)` at line 54 |
| `Normalize.IntStrReadsBack` | servers/toon_mcp.py:50-54 | `str` of an int, as a key or as a set element, reads back as that int, so two distinct ints never share a `str` |
| `Normalize.DictCase` | servers/toon_mcp.py:49-50 | a dict becomes an object whose key set is exactly the `str` of the input keys; each key holds the normalized value of the last item whose key has that `str`; an empty dict stays an empty object |
| `Normalize.DictKeepsOrder` | servers/toon_mcp.py:49-50 | when no two keys share a `str`, every item is kept in insertion order as `(str(k), make_json_safe(v))` |
| `Normalize.IntKeysKeepOrder` | servers/toon_mcp.py:49-50 | a dict whose keys are distinct ints keeps every item in insertion order, because distinct ints have distinct `str` |
| `Normalize.DictKeyCollision` | servers/toon_mcp.py:49-50 | `{1: "a", "1": "b"}` becomes `{"1": "b"}`: keys with equal `str` collide and the later value wins |
| `Normalize.SequenceCase` | servers/toon_mcp.py:51-52 | lists and tuples become lists of the same length whose i-th element is the normalized i-th input element |
| `Normalize.SetCase` | servers/toon_mcp.py:53-54 | a set becomes a list that is a permutation of its normalized elements, non-decreasing by `str`; elements with equal `str` keep the iteration order |
| `Normalize.SetOrderIndependent` | servers/toon_mcp.py:53-54 | two iteration orders of the same elements give the same list when the normalized elements have pairwise distinct `str` |
| `Normalize.SetOfTwo` | servers/toon_mcp.py:53-54 | a two-element set gives its normalized elements ordered by `str`; when the two `str` are equal, they stay in iteration order |
| `Normalize.SetTieFollowsIterationOrder` | servers/toon_mcp.py:53-54 | `{1, "1"}` gives `[1, "1"]` or `["1", 1]` depending on iteration order, because both have `str` "1" |
| `Normalize.SetSortsByStr` | servers/toon_mcp.py:53-54 | `{9, 10}` gives `[10, 9]`: sets sort by the `str` of the elements, not by their numeric value |
| `Normalize.ObjAsDict` | servers/toon_mcp.py:55-56 | an object with `__dict__` normalizes exactly as its attribute dict does |
| `Normalize.JsonSafeUnchanged` | servers/toon_mcp.py:57-59 | a value that is already JSON-safe comes back unchanged |
| `Normalize.Idempotent` | servers/toon_mcp.py:44-61 | normalizing a normalized value changes nothing |
| `Normalize.ScalarCases` | servers/toon_mcp.py:57-61 | str, int, bool and None come back as themselves; any other value becomes the JSON string holding its `str` |
| `Dicts.Assign` | servers/toon_mcp.py:50 | one assignment `d[k] = v` adds `k` to the key set and introduces no value other than `v` |
| `Dicts.AssignLookup` | servers/toon_mcp.py:50 | after `d[k] = v`, `k` holds `v` and every other key keeps its value |
| `Dicts.AssignFresh` | servers/toon_mcp.py:50 | assigning a new key appends it at the end, keeping insertion order |
| `Dicts.BuildLookup` | servers/toon_mcp.py:50 | the dict a comprehension builds holds, under each key, the last value given for it |
| `Dicts.BuildDistinctKeys` | servers/toon_mcp.py:50 | the dict a comprehension builds has each key once |
| `Dicts.BuildDistinct` | servers/toon_mcp.py:50 | without repeated keys, the comprehension keeps every pair in order |
| `Strings.LeReflexive` | servers/toon_mcp.py:54 | Python's `<=` on `str`, which `sorted` compares the keys with, holds of every string and itself |
| `Strings.LeTotal` | servers/toon_mcp.py:54 | any two strings are comparable one way or the other |
| `Strings.LeAntisymmetric` | servers/toon_mcp.py:54 | two strings each at most the other are equal |
| `Strings.LeTransitive` | servers/toon_mcp.py:54 | the order is transitive, so together with the three above it is a total order |
| `Strings.LePrefix` | servers/toon_mcp.py:54 | a proper prefix sorts strictly before any extension of it |
| `Strings.LeFirstDifference` | servers/toon_mcp.py:54 | past a common prefix, the first differing code point decides the order |
| `Sorting.SortBy` | servers/toon_mcp.py:54 | `sorted(..., key=...)` returns a permutation of its input, ordered non-decreasingly by key |
| `Sorting.SortByStable` | servers/toon_mcp.py:54 | the sort is stable: for every key, its elements come out in input order |
| `Sorting.SortByOrderIndependent` | servers/toon_mcp.py:54 | when no two elements share a key, the input order does not affect the output |
| `Decimal.ParseIntToDecimal` | servers/toon_mcp.py:128-129 | the decimal text of a count, as `{json_tokens}` renders it, reads back as the same integer |
| `Tokens.CountTokens` | servers/toon_mcp.py:32-38 | the result is -1 exactly when there is no tokenizer or encoding raises; otherwise it is the number of tokens, which is at least 0 |
| `Report.Convert` | servers/toon_mcp.py:93-106 | a non-zero exit is a CLI failure carrying stderr; a fault during launch or the output read is a subprocess error; only exit 0 with a readable output yields TOON text |
| `Report.Reduction` | servers/toon_mcp.py:124-125 | for positive counts, the reduction satisfies `reduction * json = 100 * (json - toon)`, is below 100, is positive exactly when toon < json, and is zero exactly when they are equal |
| `Report.ComputeSavings` | servers/toon_mcp.py:124-133 | numbers are shown exactly when both counts are positive, and then carry both counts and the reduction `100 * (1 - toon / json)`, which satisfies `reduction * json = 100 * (json - toon)` and is below 100 |
| `Report.SavingsListsCounts` | servers/toon_mcp.py:124-133 | with both counts positive, the savings section lists both, a reader recovers them, and it ends with "- Saved: ", the rendered reduction `100 * (1 - toon / json)` and "%\n"; otherwise it is exactly "\n\n# Token Savings\n(unavailable)\n" and shows no numbers |
| `Report.Render` | servers/toon_mcp.py:95-138 | the report is never empty; it opens with the `toon` fence exactly when conversion succeeded and with the `error` fence exactly when it did not; a CLI failure opens "TOON CLI failed:" followed by its stderr, and a fault opens "TOON subprocess error:" followed by the fault text |
| `Report.ErrorReport` | servers/toon_mcp.py:97-103 | an error report opens with the `error` fence and never with the `toon` fence |
| `Report.ErrorReportCarriesJson` | servers/toon_mcp.py:97-103 | an error report contains the stderr or fault text and ends with "JSON OUTPUT:\n", the whole JSON text and the closing fence |
| `Report.ErrorReportSavingsHeading` | servers/toon_mcp.py:108-116 | an error report contains "# Token Savings" only when the failure text or the JSON text does |
| `Report.SuccessReportShape` | servers/toon_mcp.py:121-138 | a success report opens with the verbatim fenced TOON text, then lists both counts and ends with the "- Saved:" line of the rendered reduction `100 * (1 - toon / json)` when both counts are positive, and otherwise is followed by the "(unavailable)" section |
| `Report.NoTokenizerUnavailable` | servers/toon_mcp.py:32-34 | without a tokenizer a success report ends with the "(unavailable)" section |
| `Pipeline.ToonWithStats` | servers/toon_mcp.py:77-138 | the report is a TOON report exactly when the converter exits 0 and its output is readable, and then it is the rendering of that output file's text; otherwise it ends with the whole JSON text, and it contains the failure text: a CLI failure's stderr, the fault of a run that could not start, or the error of an unreadable output file; a non-zero exit opens with "TOON CLI failed:" and the stderr, while a run that could not start or an unreadable output file opens with "TOON subprocess error:" and the fault text |
| `Pipeline.SuccessReport` | servers/toon_mcp.py:121-138 | when the converter exits 0 with a readable output file, the report opens with that file's text, fenced, verbatim; then it lists both token counts and ends with the "- Saved:" line of the rendered reduction when both counts are positive, and is otherwise followed by the "(unavailable)" section |
| `Pipeline.ToToonFromString` | servers/toon_mcp.py:171-175 | text that does not parse is refused with "Could not parse JSON string: " and the parse error, before any report is built; otherwise the result is exactly `toon_with_stats` of the parsed value |
| `Pipeline.ConverterFailureScenario` | servers/toon_mcp.py:95-103 | exit status 1 with stderr "bad input" yields an error report that contains "bad input" and ends with the JSON text, and has no savings heading unless the JSON text contains one |

## Left out

- Temporary files, the subprocess call and the read of the output file (lines 84-106) are OS I/O. A `ProcessRun` value stands for what they produced.
- Loading the tiktoken encoding and encoding text (lines 24-29, 36) belong to a foreign library. They are a `Tokenizer` holding an uninterpreted `encode` function.
- `json.dumps(safe, indent=2)` (line 78) and `json.loads` (line 172) are library serialization and parsing. They are the `dump` and `parse` parameters.
- Report.SavingsListsCounts: does not model the `{reduction:.1f}` rendering (line 130), because that is float formatting. The exact real reduction `100 * (1 - toon / json)` is what the `fmt` parameter receives, and the contract states that; the digits `fmt` produces are not stated.
- Report.Reduction: uses exact real division. Python's `/` on ints gives a float, so the shown value can differ from the exact one in its last bits before rounding to one decimal.
- Python `float` values are not part of `PyValue`. Floating point, including NaN and infinity, which `json.dumps` accepts, is out of scope.
- Python's `str` of a dict or list, and of a dict key that is a container or an object, is a `Printer` parameter. Reproducing `repr` is out of scope.
- Python equality across types (`1 == True`), which merges such keys in dicts and sets, is not modelled. Dict items and set elements are taken as given.
- Normalize.DictCase: states key order only when no two keys share a `str` (via `Normalize.DictKeepsOrder`). Under collisions the model computes the order Python gives, which keeps the first position, but no lemma states it.
- Normalize.MakeJsonSafe: is total here, but the code is not total on every finite value. Three paths raise, and the model drops all of them. Nesting deeper than Python's recursion limit raises `RecursionError`. An int of more than 4300 digits makes `json.dumps` raise `ValueError` at line 58, and `str(obj)` raises it again at line 61. A user `__str__` that raises does so at lines 50, 54 and 61. Lines 77-78 lie outside the `try`, so each of these escapes `toon_with_stats`. The model's `Printer` is total and `JInt` is unbounded, so none of these paths arises.
- A class object has a `__dict__`, but it is a mapping proxy, not a dict. That proxy is not a container the code recognises and is rejected by `json.dumps`, so a class normalizes to the string `str(cls.__dict__)` (line 61). As a value, a class is therefore an `Opaque` whose text is that string. `Obj` stands only for objects whose `__dict__` is a dict. A class used as a dict key is not modelled, because its `str` is not that text.
- Cyclic object graphs are not modelled, because the code recurses without bound on them. `PyValue` is a finite tree.
- Logging, the FastMCP server, tool registration and `mcp.run()` (lines 144-181) are transport. `to_toon` (line 162) only delegates to `toon_with_stats`.

=== FILE: basics.dfy ===
/** Small failure-carrying wrappers shared by the other modules. */
module Basics {

  /** An optional value: `None` when absent. */
  datatype Option<+T> = None | Some(value: T)

  /** Either a value or the text of the error that replaced it. */
  datatype Result<+R, +E> = Success(value: R) | Failure(error: E)
}

=== FILE: decimal.dfy ===
/**
 * Python's `str` of an `int`: base-ten digits, a leading '-' for negative
 * values, no leading zeros. Paired with a reader that recovers the number.
 */
module Decimal {
  import opened Basics

  predicate IsDigit(c: char) {
    '0' <= c <= '9'
  }

  function DigitChar(d: nat): (c: char)
    requires d < 10
    ensures IsDigit(c)
  {
    ('0' as int + d) as char
  }

  function DigitValue(c: char): nat
    requires IsDigit(c)
  {
    c as int - '0' as int
  }

  /** The digits of `n`, most significant first. */
  function NatToDecimal(n: nat): (s: string)
    ensures |s| > 0
    ensures forall i :: 0 <= i < |s| ==> IsDigit(s[i])
    ensures s[0] == '0' ==> n == 0
  {
    if n < 10 then [DigitChar(n)] else NatToDecimal(n / 10) + [DigitChar(n % 10)]
  }

  /** `str(n)` for a Python int. */
  function IntToDecimal(n: int): (s: string)
    ensures |s| > 0
    ensures s[0] == '-' <==> n < 0
  {
    if n < 0 then "-" + NatToDecimal(-n) else NatToDecimal(n)
  }

  /** The value of a string of digits, as Python's `int(s)` reads it. */
  function ParseDigits(s: string): Option<nat> {
    if |s| == 0 then None
    else if !IsDigit(s[|s| - 1]) then None
    else if |s| == 1 then Some(DigitValue(s[0]))
    else match ParseDigits(s[..|s| - 1])
      case None => None
      case Some(high) => Some(high * 10 + DigitValue(s[|s| - 1]))
  }

  /** Reads an optionally signed decimal integer. */
  function ParseInt(s: string): Option<int> {
    if |s| > 0 && s[0] == '-' then
      match ParseDigits(s[1..])
      case None => None
      case Some(m) => Some(-(m as int))
    else
      match ParseDigits(s)
      case None => None
      case Some(m) => Some(m)
  }

  lemma {:induction false} ParseNatToDecimal(n: nat)
    ensures ParseDigits(NatToDecimal(n)) == Some(n)
  {
    if n >= 10 {
      var s := NatToDecimal(n);
      assert s[..|s| - 1] == NatToDecimal(n / 10);
      ParseNatToDecimal(n / 10);
    }
  }

  /** Reading back the rendering of any integer gives the integer. */
  lemma ParseIntToDecimal(n: int)
    ensures ParseInt(IntToDecimal(n)) == Some(n)
  {
    if n < 0 {
      assert IntToDecimal(n)[1..] == NatToDecimal(-n);
      ParseNatToDecimal(-n);
    } else {
      ParseNatToDecimal(n);
    }
  }

  /** Distinct integers render to distinct strings. */
  lemma IntToDecimalInjective(m: int, n: int)
    requires IntToDecimal(m) == IntToDecimal(n)
    ensures m == n
  {
    ParseIntToDecimal(m);
    ParseIntToDecimal(n);
  }
}

=== FILE: dicts.dfy ===
/**
 * Python dicts with string keys, as insertion-ordered association lists.
 * Assigning to an existing key replaces its value in place; a new key is
 * appended at the end.
 */
module Dicts {
  import opened Basics

  /** The keys present. */
  function Keys<V>(fields: seq<(string, V)>): (ks: set<string>)
    ensures forall i :: 0 <= i < |fields| ==> fields[i].0 in ks
    ensures forall k :: k in ks ==> exists i :: 0 <= i < |fields| && fields[i].0 == k
  {
    if |fields| == 0 then {}
    else
      var rest := Keys(fields[1..]);
      assert forall k :: k in rest ==> exists i :: 0 <= i < |fields| && fields[i].0 == k by {
        forall k | k in rest
          ensures exists i :: 0 <= i < |fields| && fields[i].0 == k
        {
          var j :| 0 <= j < |fields[1..]| && fields[1..][j].0 == k;
          assert fields[j + 1].0 == k;
        }
      }
      {fields[0].0} + rest
  }

  predicate DistinctKeys<V>(fields: seq<(string, V)>) {
    forall i, j :: 0 <= i < j < |fields| ==> fields[i].0 != fields[j].0
  }

  /** `d.get(k)`: the value stored under `k`, if any. */
  function Lookup<V>(fields: seq<(string, V)>, k: string): Option<V> {
    if |fields| == 0 then None
    else if fields[0].0 == k then Some(fields[0].1)
    else Lookup(fields[1..], k)
  }

  /** The value of the last pair whose key is `k`: the one a run of assignments leaves behind. */
  function LastValue<V>(pairs: seq<(string, V)>, k: string): Option<V> {
    if |pairs| == 0 then None
    else if LastValue(pairs[1..], k).Some? then LastValue(pairs[1..], k)
    else if pairs[0].0 == k then Some(pairs[0].1)
    else None
  }

  /** `d[k] = v`. */
  function Assign<V>(fields: seq<(string, V)>, k: string, v: V): (r: seq<(string, V)>)
    ensures Keys(r) == Keys(fields) + {k}
    ensures forall x :: x in r ==> x == (k, v) || x in fields
  {
    if |fields| == 0 then [(k, v)]
    else if fields[0].0 == k then [(k, v)] + fields[1..]
    else
      var rest := Assign(fields[1..], k, v);
      assert forall x :: x in fields[1..] ==> x in fields;
      [fields[0]] + rest
  }

  /** After `d[k] = v`, `k` holds `v` and every other key keeps its value. */
  lemma {:induction false} AssignLookup<V>(fields: seq<(string, V)>, k: string, v: V, k': string)
    ensures Lookup(Assign(fields, k, v), k') == if k' == k then Some(v) else Lookup(fields, k')
  {
    if |fields| > 0 && fields[0].0 != k {
      AssignLookup(fields[1..], k, v, k');
    }
  }

  /** A key of a dict with distinct keys is not among the keys after its first entry. */
  lemma HeadKeyNotInTail<V>(fields: seq<(string, V)>)
    requires DistinctKeys(fields) && |fields| > 0
    ensures fields[0].0 !in Keys(fields[1..])
  {
    var tail := fields[1..];
    forall i | 0 <= i < |tail|
      ensures tail[i].0 != fields[0].0
    {
      assert tail[i] == fields[i + 1];
    }
  }

  /** Putting a pair in front of a dict whose keys it does not share keeps keys distinct. */
  lemma ConsDistinct<V>(head: (string, V), rest: seq<(string, V)>)
    requires DistinctKeys(rest) && head.0 !in Keys(rest)
    ensures DistinctKeys([head] + rest)
  {
    var r := [head] + rest;
    forall i, j | 0 <= i < j < |r|
      ensures r[i].0 != r[j].0
    {
      assert r[j] == rest[j - 1];
      if i > 0 {
        assert r[i] == rest[i - 1];
      }
    }
  }

  /** Assignment never creates a second copy of a key. */
  lemma {:induction false} AssignDistinct<V>(fields: seq<(string, V)>, k: string, v: V)
    requires DistinctKeys(fields)
    ensures DistinctKeys(Assign(fields, k, v))
  {
    if |fields| > 0 {
      var tail := fields[1..];
      assert DistinctKeys(tail);
      HeadKeyNotInTail(fields);
      if fields[0].0 == k {
        assert Assign(fields, k, v) == [(k, v)] + tail;
        ConsDistinct((k, v), tail);
      } else {
        AssignDistinct(tail, k, v);
        assert Assign(fields, k, v) == [fields[0]] + Assign(tail, k, v);
        ConsDistinct(fields[0], Assign(tail, k, v));
      }
    }
  }

  /** Assigning a key not yet present appends it at the end. */
  lemma {:induction false} AssignFresh<V>(fields: seq<(string, V)>, k: string, v: V)
    requires k !in Keys(fields)
    ensures Assign(fields, k, v) == fields + [(k, v)]
  {
    if |fields| > 0 {
      var tail := fields[1..];
      assert Keys(fields) == {fields[0].0} + Keys(tail);
      AssignFresh(tail, k, v);
      assert Assign(fields, k, v) == [fields[0]] + Assign(tail, k, v);
      assert [fields[0]] + (tail + [(k, v)]) == fields + [(k, v)];
    }
  }

  /** Runs the assignments `acc[k] = v` for the pairs of `pairs`, in order. */
  function AssignAll<V>(acc: seq<(string, V)>, pairs: seq<(string, V)>): (r: seq<(string, V)>)
    ensures Keys(r) == Keys(acc) + Keys(pairs)
    ensures forall x :: x in r ==> x in acc || x in pairs
    decreases |pairs|
  {
    if |pairs| == 0 then acc
    else
      assert forall x :: x in pairs[1..] ==> x in pairs;
      AssignAll(Assign(acc, pairs[0].0, pairs[0].1), pairs[1..])
  }

  /**
   * The dict a comprehension `{k: v for (k, v) in pairs}` produces: every key
   * once, in order of first appearance, holding the last value given for it.
   */
  function Build<V>(pairs: seq<(string, V)>): (r: seq<(string, V)>)
    ensures Keys(r) == Keys(pairs)
    ensures forall x :: x in r ==> x in pairs
  {
    AssignAll([], pairs)
  }

  lemma {:induction false} AssignAllLookup<V>(acc: seq<(string, V)>, pairs: seq<(string, V)>, k: string)
    ensures Lookup(AssignAll(acc, pairs), k) == if LastValue(pairs, k).Some? then LastValue(pairs, k) else Lookup(acc, k)
    decreases |pairs|
  {
    if |pairs| > 0 {
      AssignLookup(acc, pairs[0].0, pairs[0].1, k);
      AssignAllLookup(Assign(acc, pairs[0].0, pairs[0].1), pairs[1..], k);
    }
  }

  lemma {:induction false} AssignAllDistinct<V>(acc: seq<(string, V)>, pairs: seq<(string, V)>)
    requires DistinctKeys(acc)
    ensures DistinctKeys(AssignAll(acc, pairs))
    decreases |pairs|
  {
    if |pairs| > 0 {
      AssignDistinct(acc, pairs[0].0, pairs[0].1);
      AssignAllDistinct(Assign(acc, pairs[0].0, pairs[0].1), pairs[1..]);
    }
  }

  /** Every key of the built dict appears once. */
  lemma BuildDistinctKeys<V>(pairs: seq<(string, V)>)
    ensures DistinctKeys(Build(pairs))
  {
    AssignAllDistinct([], pairs);
  }

  /** Every key of the built dict holds the last value given for it. */
  lemma BuildLookup<V>(pairs: seq<(string, V)>, k: string)
    ensures Lookup(Build(pairs), k) == LastValue(pairs, k)
  {
    AssignAllLookup([], pairs, k);
  }

  /** The first key of `pairs` is new to `acc`, and moving its pair over keeps the keys distinct. */
  lemma FirstPairFresh<V>(acc: seq<(string, V)>, pairs: seq<(string, V)>)
    requires DistinctKeys(acc + pairs) && |pairs| > 0
    ensures pairs[0].0 !in Keys(acc)
    ensures (acc + [(pairs[0].0, pairs[0].1)]) + pairs[1..] == acc + pairs
  {
    forall i | 0 <= i < |acc|
      ensures acc[i].0 != pairs[0].0
    {
      assert (acc + pairs)[i] == acc[i];
      assert (acc + pairs)[|acc|] == pairs[0];
    }
    assert pairs[0] == (pairs[0].0, pairs[0].1);
  }

  lemma {:induction false} AssignAllFresh<V>(acc: seq<(string, V)>, pairs: seq<(string, V)>)
    requires DistinctKeys(acc + pairs)
    ensures AssignAll(acc, pairs) == acc + pairs
    decreases |pairs|
  {
    if |pairs| > 0 {
      var k, v := pairs[0].0, pairs[0].1;
      FirstPairFresh(acc, pairs);
      AssignFresh(acc, k, v);
      AssignAllFresh(acc + [(k, v)], pairs[1..]);
    }
  }

  /** Without repeated keys, building the dict keeps every pair, in order. */
  lemma BuildDistinct<V>(pairs: seq<(string, V)>)
    requires DistinctKeys(pairs)
    ensures Build(pairs) == pairs
  {
    assert [] + pairs == pairs;
    AssignAllFresh([], pairs);
  }
}

=== FILE: normalize.dfy ===
/**
 * `make_json_safe`: rewrites a Python value tree into a JSON-safe one.
 * Dicts get `str` keys, lists and tuples become lists, sets become lists
 * sorted by `str`, objects are flattened to their attribute dict, JSON
 * scalars pass through and anything else becomes its `str`.
 */
module Normalize {
  import opened Basics
  import opened Dicts
  import opened Values
  import opened Sorting
  import Strings
  import Decimal
  import Seqs

  /** The key `sorted(..., key=lambda x: str(x))` orders a set's normalized elements by. */
  function SortKey(p: Printer): JsonValue -> string {
    x => Show(p, x)
  }

  function MakeJsonSafe(p: Printer, v: PyValue): (r: JsonValue)
    ensures WellFormed(r)
    decreases v
  {
    // The comprehensions below are `NormalizePairs`, `NormalizeEach` and
    // `ObjPairs` written out: calling those here would make the recursion
    // mutual and hide that each call is on a component of `v`.
    match v
    case Dict(items) =>
      var pairs := seq(|items|, i requires 0 <= i < |items| => (KeyStr(p, items[i].0), MakeJsonSafe(p, items[i].1)));
      ObjectWellFormed(pairs);
      JObject(Build(pairs))
    case List(xs) => JArray(seq(|xs|, i requires 0 <= i < |xs| => MakeJsonSafe(p, xs[i])))
    case Tuple(xs) => JArray(seq(|xs|, i requires 0 <= i < |xs| => MakeJsonSafe(p, xs[i])))
    case Set(xs) =>
      var each := seq(|xs|, i requires 0 <= i < |xs| => MakeJsonSafe(p, xs[i]));
      SortedWellFormed(p, each);
      JArray(SortBy(SortKey(p), each))
    case Obj(attrs) =>
      var pairs := seq(|attrs|, i requires 0 <= i < |attrs| => (attrs[i].0, MakeJsonSafe(p, attrs[i].1)));
      ObjectWellFormed(pairs);
      JObject(Build(pairs))
    case Str(s) => JString(s)
    case Int(n) => JInt(n)
    case Bool(b) => JBool(b)
    case NoneValue => JNull
    case Opaque(text) => JString(text)
  }

  /** A dict built from well-formed values is well-formed. */
  lemma ObjectWellFormed(pairs: seq<(string, JsonValue)>)
    requires forall i :: 0 <= i < |pairs| ==> WellFormed(pairs[i].1)
    ensures WellFormed(JObject(Build(pairs)))
  {
    BuildDistinctKeys(pairs);
    var r := Build(pairs);
    forall i | 0 <= i < |r|
      ensures WellFormed(r[i].1)
    {
      assert r[i] in r;
      var j :| 0 <= j < |pairs| && pairs[j] == r[i];
    }
  }

  /** Sorting well-formed values yields well-formed values. */
  lemma SortedWellFormed(p: Printer, each: seq<JsonValue>)
    requires forall i :: 0 <= i < |each| ==> WellFormed(each[i])
    ensures WellFormed(JArray(SortBy(SortKey(p), each)))
  {
    var sorted := SortBy(SortKey(p), each);
    forall i | 0 <= i < |sorted|
      ensures WellFormed(sorted[i])
    {
      assert sorted[i] in multiset(each);
    }
  }

  /** The normalized elements of a sequence, in order. */
  function NormalizeEach(p: Printer, xs: seq<PyValue>): (r: seq<JsonValue>)
    ensures |r| == |xs|
  {
    seq(|xs|, i requires 0 <= i < |xs| => MakeJsonSafe(p, xs[i]))
  }

  /** The pairs `(str(k), make_json_safe(v))` a dict comprehension assigns, in order. */
  function NormalizePairs(p: Printer, items: seq<(PyValue, PyValue)>): (r: seq<(string, JsonValue)>)
    ensures |r| == |items|
  {
    seq(|items|, i requires 0 <= i < |items| => (KeyStr(p, items[i].0), MakeJsonSafe(p, items[i].1)))
  }

  /** The set of `str(k)` over a dict's keys. */
  function KeyStrs(p: Printer, items: seq<(PyValue, PyValue)>): set<string> {
    set i | 0 <= i < |items| :: KeyStr(p, items[i].0)
  }

  /** The value of the last item whose key has `str` equal to `k`. */
  function LastItem(p: Printer, items: seq<(PyValue, PyValue)>, k: string): Option<PyValue> {
    if |items| == 0 then None
    else if LastItem(p, items[1..], k).Some? then LastItem(p, items[1..], k)
    else if KeyStr(p, items[0].0) == k then Some(items[0].1)
    else None
  }

  function MapOption(p: Printer, o: Option<PyValue>): Option<JsonValue> {
    match o
    case None => None
    case Some(v) => Some(MakeJsonSafe(p, v))
  }

  /** The pairs of a non-empty dict: its first item's pair, then the rest's. */
  lemma NormalizePairsCons(p: Printer, items: seq<(PyValue, PyValue)>)
    requires |items| > 0
    ensures NormalizePairs(p, items)[0] == (KeyStr(p, items[0].0), MakeJsonSafe(p, items[0].1))
    ensures NormalizePairs(p, items)[1..] == NormalizePairs(p, items[1..])
  {
    var all, rest := NormalizePairs(p, items), NormalizePairs(p, items[1..]);
    forall i | 0 <= i < |rest|
      ensures all[1..][i] == rest[i]
    {
      assert items[1..][i] == items[i + 1];
    }
  }

  lemma {:induction false} LastValueOfPairs(p: Printer, items: seq<(PyValue, PyValue)>, k: string)
    ensures LastValue(NormalizePairs(p, items), k) == MapOption(p, LastItem(p, items, k))
  {
    if |items| > 0 {
      NormalizePairsCons(p, items);
      LastValueOfPairs(p, items[1..], k);
    }
  }

  lemma KeysOfPairs(p: Printer, items: seq<(PyValue, PyValue)>)
    ensures Keys(NormalizePairs(p, items)) == KeyStrs(p, items)
  {
    var pairs := NormalizePairs(p, items);
    forall k | k in Keys(pairs)
      ensures k in KeyStrs(p, items)
    {
      var i :| 0 <= i < |pairs| && pairs[i].0 == k;
      assert KeyStr(p, items[i].0) == k;
    }
    forall k | k in KeyStrs(p, items)
      ensures k in Keys(pairs)
    {
      var i :| 0 <= i < |items| && KeyStr(p, items[i].0) == k;
      assert pairs[i].0 == k;
    }
  }

  /**
   * A dict becomes a JSON object whose keys are exactly the `str` of the
   * input keys. Each key holds the normalized value of the LAST item whose
   * key has that `str`: `1` and `"1"` collide and the later one wins. An
   * empty dict stays an empty object.
   */
  lemma DictCase(p: Printer, items: seq<(PyValue, PyValue)>, k: string)
    ensures MakeJsonSafe(p, Dict(items)).JObject?
    ensures Keys(MakeJsonSafe(p, Dict(items)).fields) == KeyStrs(p, items)
    ensures Lookup(MakeJsonSafe(p, Dict(items)).fields, k) == MapOption(p, LastItem(p, items, k))
    ensures |items| == 0 ==> MakeJsonSafe(p, Dict(items)) == JObject([])
  {
    var pairs := NormalizePairs(p, items);
    assert MakeJsonSafe(p, Dict(items)) == JObject(Build(pairs));
    KeysOfPairs(p, items);
    BuildLookup(pairs, k);
    LastValueOfPairs(p, items, k);
  }

  /** When no two keys share a `str`, every item is kept, in insertion order. */
  lemma DictKeepsOrder(p: Printer, items: seq<(PyValue, PyValue)>)
    requires forall i, j :: 0 <= i < j < |items| ==> KeyStr(p, items[i].0) != KeyStr(p, items[j].0)
    ensures MakeJsonSafe(p, Dict(items)) == JObject(NormalizePairs(p, items))
  {
    var pairs := NormalizePairs(p, items);
    assert MakeJsonSafe(p, Dict(items)) == JObject(Build(pairs));
    BuildDistinct(pairs);
  }

  /** A dict whose keys are distinct ints keeps every item, in insertion order: distinct ints never collide. */
  lemma IntKeysKeepOrder(p: Printer, items: seq<(PyValue, PyValue)>)
    requires forall i :: 0 <= i < |items| ==> items[i].0.Int?
    requires forall i, j :: 0 <= i < j < |items| ==> items[i].0.n != items[j].0.n
    ensures MakeJsonSafe(p, Dict(items)) == JObject(NormalizePairs(p, items))
  {
    forall i, j | 0 <= i < j < |items|
      ensures KeyStr(p, items[i].0) != KeyStr(p, items[j].0)
    {
      if KeyStr(p, items[i].0) == KeyStr(p, items[j].0) {
        Decimal.IntToDecimalInjective(items[i].0.n, items[j].0.n);
      }
    }
    DictKeepsOrder(p, items);
  }

  /** `{1: "a", "1": "b"}` normalizes to `{"1": "b"}`. */
  lemma DictKeyCollision(p: Printer)
    ensures MakeJsonSafe(p, Dict([(Int(1), Str("a")), (Str("1"), Str("b"))])) == JObject([("1", JString("b"))])
  {
    var items := [(Int(1), Str("a")), (Str("1"), Str("b"))];
    var pairs := NormalizePairs(p, items);
    assert KeyStr(p, Int(1)) == "1";
    assert pairs == [("1", JString("a")), ("1", JString("b"))];
    assert MakeJsonSafe(p, Dict(items)) == JObject(Build(pairs));
    var a, b := ("1", JString("a")), ("1", JString("b"));
    assert pairs[1..] == [b] && [b][1..] == [];
    assert Assign([], "1", JString("a")) == [a];
    assert Build(pairs) == AssignAll([a], [b]);
    assert Assign([a], "1", JString("b")) == [b];
    assert AssignAll([a], [b]) == AssignAll([b], []);
  }

  /** Lists and tuples become lists of the same length, element by element, in order. */
  lemma SequenceCase(p: Printer, v: PyValue)
    requires v.List? || v.Tuple?
    ensures MakeJsonSafe(p, v).JArray?
    ensures |MakeJsonSafe(p, v).elems| == |v.elems|
    ensures forall i :: 0 <= i < |v.elems| ==> MakeJsonSafe(p, v).elems[i] == MakeJsonSafe(p, v.elems[i])
  {
  }

  /** A set normalizes to its normalized elements, sorted by `str`. */
  lemma SetUnfold(p: Printer, xs: seq<PyValue>)
    ensures MakeJsonSafe(p, Set(xs)) == JArray(SortBy(SortKey(p), NormalizeEach(p, xs)))
  {
  }

  /**
   * A set becomes a list holding exactly its normalized elements, in
   * non-decreasing order of their `str`; elements with equal `str` keep the
   * order in which the set was iterated.
   */
  lemma SetCase(p: Printer, xs: seq<PyValue>)
    ensures MakeJsonSafe(p, Set(xs)).JArray?
    ensures multiset(MakeJsonSafe(p, Set(xs)).elems) == multiset(NormalizeEach(p, xs))
    ensures SortedBy(SortKey(p), MakeJsonSafe(p, Set(xs)).elems)
    ensures forall k :: WithKey(SortKey(p), MakeJsonSafe(p, Set(xs)).elems, k) == WithKey(SortKey(p), NormalizeEach(p, xs), k)
  {
    var each := NormalizeEach(p, xs);
    SetUnfold(p, xs);
    forall k
      ensures WithKey(SortKey(p), SortBy(SortKey(p), each), k) == WithKey(SortKey(p), each, k)
    {
      SortByStable(SortKey(p), each, k);
    }
  }

  /** `MakeJsonSafe` as a function value. */
  function Normalizer(p: Printer): PyValue -> JsonValue {
    v => MakeJsonSafe(p, v)
  }

  /** Normalizing two orderings of the same elements gives two orderings of the same results. */
  lemma NormalizeEachPermutation(p: Printer, xs: seq<PyValue>, ys: seq<PyValue>)
    requires multiset(xs) == multiset(ys)
    ensures multiset(NormalizeEach(p, xs)) == multiset(NormalizeEach(p, ys))
  {
    Seqs.MapPermutation(Normalizer(p), xs, ys);
    assert NormalizeEach(p, xs) == Seqs.Map(Normalizer(p), xs);
    assert NormalizeEach(p, ys) == Seqs.Map(Normalizer(p), ys);
  }

  /**
   * When the normalized elements have pairwise distinct `str`, the result
   * does not depend on the order in which the set is iterated.
   */
  lemma SetOrderIndependent(p: Printer, xs: seq<PyValue>, ys: seq<PyValue>)
    requires multiset(xs) == multiset(ys)
    requires KeysDistinct(SortKey(p), NormalizeEach(p, xs))
    ensures MakeJsonSafe(p, Set(xs)) == MakeJsonSafe(p, Set(ys))
  {
    NormalizeEachPermutation(p, xs, ys);
    SetUnfold(p, xs);
    SetUnfold(p, ys);
    SortByOrderIndependent(SortKey(p), NormalizeEach(p, xs), NormalizeEach(p, ys));
  }

  /**
   * `{1, "1"}`: both elements have `str` equal to "1", so the stable sort
   * keeps the iteration order and the two possible orders give two results.
   */
  lemma SetTieFollowsIterationOrder(p: Printer)
    ensures MakeJsonSafe(p, Set([Int(1), Str("1")])) == JArray([JInt(1), JString("1")])
    ensures MakeJsonSafe(p, Set([Str("1"), Int(1)])) == JArray([JString("1"), JInt(1)])
  {
    assert MakeJsonSafe(p, Int(1)) == JInt(1) && MakeJsonSafe(p, Str("1")) == JString("1");
    assert Show(p, JInt(1)) == "1" == Show(p, JString("1"));
    Strings.LeReflexive("1");
    SetOfTwo(p, Int(1), Str("1"));
    SetOfTwo(p, Str("1"), Int(1));
  }

  /** Normalizing two elements, one by one. */
  lemma EachOfTwo(p: Printer, a: PyValue, b: PyValue)
    ensures NormalizeEach(p, [a, b]) == [MakeJsonSafe(p, a), MakeJsonSafe(p, b)]
  {
    var each := NormalizeEach(p, [a, b]);
    assert each[0] == MakeJsonSafe(p, a) && each[1] == MakeJsonSafe(p, b);
  }

  /** A two-element set comes out ordered by the `str` of its normalized elements, ties in iteration order. */
  lemma SetOfTwo(p: Printer, a: PyValue, b: PyValue)
    ensures var ja, jb := MakeJsonSafe(p, a), MakeJsonSafe(p, b);
      MakeJsonSafe(p, Set([a, b])) == JArray(if Strings.Le(Show(p, ja), Show(p, jb)) then [ja, jb] else [jb, ja])
  {
    var ja, jb := MakeJsonSafe(p, a), MakeJsonSafe(p, b);
    var key := SortKey(p);
    SetUnfold(p, [a, b]);
    EachOfTwo(p, a, b);
    assert key(ja) == Show(p, ja) && key(jb) == Show(p, jb);
    SortTwo(key, ja, jb);
  }

  /** `str(9)` is "9", `str(10)` is "10", and "9" sorts after "10". */
  lemma NineAndTen()
    ensures Decimal.IntToDecimal(9) == "9" && Decimal.IntToDecimal(10) == "10"
    ensures !Strings.Le("9", "10")
  {
    assert Decimal.NatToDecimal(1) == "1" && Decimal.NatToDecimal(9) == "9";
    assert Decimal.NatToDecimal(10) == Decimal.NatToDecimal(1) + [Decimal.DigitChar(0)];
  }

  /** `{9, 10}` sorts by `str`, so "10" comes before "9". */
  lemma SetSortsByStr(p: Printer)
    ensures MakeJsonSafe(p, Set([Int(9), Int(10)])) == JArray([JInt(10), JInt(9)])
  {
    NineAndTen();
    assert Show(p, JInt(9)) == "9" && Show(p, JInt(10)) == "10";
    assert MakeJsonSafe(p, Int(9)) == JInt(9) && MakeJsonSafe(p, Int(10)) == JInt(10);
    SetOfTwo(p, Int(9), Int(10));
  }

  /** An object's attribute dict, as the Python dict `obj.__dict__`. */
  function AttrDict(attrs: seq<(string, PyValue)>): (d: PyValue)
    ensures d.Dict? && |d.items| == |attrs|
  {
    Dict(seq(|attrs|, i requires 0 <= i < |attrs| => (Str(attrs[i].0), attrs[i].1)))
  }

  /** An object normalizes exactly as its attribute dict does. */
  lemma ObjAsDict(p: Printer, attrs: seq<(string, PyValue)>)
    ensures MakeJsonSafe(p, Obj(attrs)) == MakeJsonSafe(p, AttrDict(attrs))
  {
    var items := AttrDict(attrs).items;
    var pairs := ObjPairs(p, attrs);
    ObjUnfold(p, attrs);
    DictUnfold(p, items);
    forall i | 0 <= i < |attrs|
      ensures NormalizePairs(p, items)[i] == pairs[i]
    {
      assert items[i].0 == Str(attrs[i].0);
    }
    assert NormalizePairs(p, items) == pairs;
  }

  /** The pairs `(name, make_json_safe(value))` of an object's attributes, in order. */
  function ObjPairs(p: Printer, attrs: seq<(string, PyValue)>): (r: seq<(string, JsonValue)>)
    ensures |r| == |attrs|
  {
    seq(|attrs|, i requires 0 <= i < |attrs| => (attrs[i].0, MakeJsonSafe(p, attrs[i].1)))
  }

  /** A dict normalizes to the comprehension over its normalized pairs. */
  lemma DictUnfold(p: Printer, items: seq<(PyValue, PyValue)>)
    ensures MakeJsonSafe(p, Dict(items)) == JObject(Build(NormalizePairs(p, items)))
  {
  }

  /** An object normalizes to the comprehension over its normalized attributes. */
  lemma ObjUnfold(p: Printer, attrs: seq<(string, PyValue)>)
    ensures MakeJsonSafe(p, Obj(attrs)) == JObject(Build(ObjPairs(p, attrs)))
  {
  }

  /** A value that is already JSON-safe comes back unchanged. */
  lemma {:induction false} JsonSafeUnchanged(p: Printer, x: JsonValue)
    requires WellFormed(x)
    ensures MakeJsonSafe(p, Embed(x)) == x
  {
    match x
    case JObject(fields) =>
      var items := Embed(x).items;
      forall i | 0 <= i < |fields|
        ensures MakeJsonSafe(p, items[i].1) == fields[i].1
      {
        JsonSafeUnchanged(p, fields[i].1);
      }
      assert NormalizePairs(p, items) == fields;
      BuildDistinct(fields);
    case JArray(elems) =>
      forall i | 0 <= i < |elems|
        ensures MakeJsonSafe(p, Embed(x).elems[i]) == elems[i]
      {
        JsonSafeUnchanged(p, elems[i]);
      }
    case _ =>
  }

  /** Normalizing twice gives the same as normalizing once. */
  lemma Idempotent(p: Printer, v: PyValue)
    ensures MakeJsonSafe(p, Embed(MakeJsonSafe(p, v))) == MakeJsonSafe(p, v)
  {
    JsonSafeUnchanged(p, MakeJsonSafe(p, v));
  }

  /**
   * A scalar dict key gets the same `str` as its normalized value: the
   * key rendering of line 50 agrees with the element rendering of line 54.
   */
  lemma ScalarKeyStr(p: Printer, k: PyValue)
    requires !(k.Dict? || k.List? || k.Tuple? || k.Set? || k.Obj?)
    ensures KeyStr(p, k) == Show(p, MakeJsonSafe(p, k))
  {
  }

  /**
   * `str` of an int, as a key or as a set element, is its decimal text: it
   * reads back as the same int, so distinct ints never share a `str`.
   */
  lemma IntStrReadsBack(p: Printer, m: int, n: int)
    ensures Decimal.ParseInt(KeyStr(p, Int(n))) == Some(n)
    ensures Decimal.ParseInt(Show(p, JInt(n))) == Some(n)
    ensures m != n ==> KeyStr(p, Int(m)) != KeyStr(p, Int(n))
  {
    Decimal.ParseIntToDecimal(n);
    Decimal.ParseIntToDecimal(m);
  }

  /**
   * JSON scalars come back as themselves; anything `json.dumps` rejects
   * becomes the JSON string holding its `str`.
   */
  lemma ScalarCases(p: Printer, v: PyValue)
    requires !(v.Dict? || v.List? || v.Tuple? || v.Set? || v.Obj?)
    ensures v.Opaque? ==> MakeJsonSafe(p, v) == JString(v.text)
    ensures !v.Opaque? ==> Embed(MakeJsonSafe(p, v)) == v
  {
  }
}

=== FILE: pipeline.dfy ===
/**
 * `toon_with_stats` end to end: normalize, serialize, convert, report; and
 * `to_toon_from_string`, which parses JSON text first.
 */
module Pipeline {
  import opened Basics
  import opened Strings
  import opened Values
  import opened Normalize
  import opened Report
  import Tokens

  /**
   * The collaborators the pipeline calls out to: `json.dumps(..., indent=2)`,
   * one run of the converter on a JSON text, the tokenizer, and the `.1f`
   * rendering of a percentage.
   */
  datatype Environment = Environment(
    dump: JsonValue -> string,
    run: string -> ProcessRun,
    tok: Tokens.Tokenizer,
    fmt: real -> string)

  /** The JSON text the converter receives and the error report carries. */
  function JsonText(env: Environment, p: Printer, data: PyValue): string {
    env.dump(MakeJsonSafe(p, data))
  }

  /**
   * The report for `data`. It is a TOON report exactly when the converter
   * exits with 0 and its output can be read; otherwise it is an error report
   * that ends with the whole JSON text.
   */
  function ToonWithStats(env: Environment, p: Printer, data: PyValue): (r: string)
    ensures var json := JsonText(env, p, data);
      var run := env.run(json);
      && |r| > 0
      && (StartsWith(r, "```toon\n") <==> run.Exited? && run.returnCode == 0 && run.toonFile.Success?)
      && (StartsWith(r, "```error\n") <==> !(run.Exited? && run.returnCode == 0 && run.toonFile.Success?))
      && (StartsWith(r, "```error\n") ==> EndsWith(r, "JSON OUTPUT:\n" + json + "\n```"))
      && (run.Exited? && run.returnCode != 0 ==> Contains(r, run.stderr))
      && (run.Crashed? ==> Contains(r, run.fault))
      && (run.Exited? && run.returnCode == 0 && run.toonFile.Failure? ==> Contains(r, run.toonFile.error))
      && (run.Exited? && run.returnCode == 0 && run.toonFile.Success? ==>
            r == Render(Converted(run.toonFile.value), json, env.tok, env.fmt))
      && (run.Exited? && run.returnCode != 0 ==>
            StartsWith(r, "```error\n" + CliFailedHeadline + ":\n" + run.stderr + "\n\n"))
      && (run.Crashed? ==> StartsWith(r, "```error\n" + FaultHeadline + ":\n" + run.fault + "\n\n"))
      && (run.Exited? && run.returnCode == 0 && run.toonFile.Failure? ==>
            StartsWith(r, "```error\n" + FaultHeadline + ":\n" + run.toonFile.error + "\n\n"))
  {
    var json := JsonText(env, p, data);
    var c := Convert(env.run(json));
    match c
    case CliFailed(stderr) =>
      ErrorReportCarriesJson(CliFailedHeadline, stderr, json);
      Render(c, json, env.tok, env.fmt)
    case Fault(message) =>
      ErrorReportCarriesJson(FaultHeadline, message, json);
      Render(c, json, env.tok, env.fmt)
    case Converted(_) => Render(c, json, env.tok, env.fmt)
  }

  /**
   * Text that does not parse is refused with a message naming the parse
   * error, before any report is built; text that parses gets the report of
   * the parsed value.
   */
  function ToToonFromString(parse: string -> Result<PyValue, string>, env: Environment, p: Printer, text: string)
    : (r: Result<string, string>)
    ensures r.Failure? <==> parse(text).Failure?
    ensures r.Failure? ==> r.error == "Could not parse JSON string: " + parse(text).error
    ensures r.Success? ==> StartsWith(r.value, "```toon\n") || StartsWith(r.value, "```error\n")
    ensures r.Success? ==> r.value == ToonWithStats(env, p, parse(text).value)
  {
    match parse(text)
    case Failure(e) => Failure("Could not parse JSON string: " + e)
    case Success(value) => Success(ToonWithStats(env, p, value))
  }

  lemma BadInputPlain()
    ensures !Contains("bad input", SavingsHeading)
  {
    NotContainsWithoutFirstChar("bad input", SavingsHeading);
  }

  /** A non-zero exit status yields the CLI-failure error report for the JSON text. */
  lemma CliFailureReport(env: Environment, p: Printer, data: PyValue)
    requires env.run(JsonText(env, p, data)).Exited? && env.run(JsonText(env, p, data)).returnCode != 0
    ensures ToonWithStats(env, p, data) ==
      ErrorReport(CliFailedHeadline, env.run(JsonText(env, p, data)).stderr, JsonText(env, p, data))
  {
  }

  /**
   * A converter that exits with 0 and leaves a readable output file yields
   * that file's text, fenced, verbatim, followed by the savings section: both
   * counts and the rendered reduction when both are positive, and the
   * "(unavailable)" section otherwise.
   */
  lemma SuccessReport(env: Environment, p: Printer, data: PyValue, toon: string)
    requires var run := env.run(JsonText(env, p, data));
      run.Exited? && run.returnCode == 0 && run.toonFile == Success(toon)
    ensures var r := ToonWithStats(env, p, data);
      var json := JsonText(env, p, data);
      var block := "```toon\n" + toon + "\n```";
      var j, t := Tokens.CountTokens(env.tok, json), Tokens.CountTokens(env.tok, toon);
      && StartsWith(r, block)
      && (j > 0 && t > 0 ==> ReadCounts(r[|block|..]) == Some((j, t)))
      && (j > 0 && t > 0 ==> EndsWith(r, SavedLine(env.fmt(Reduction(j, t)))))
      && (!(j > 0 && t > 0) ==> r[|block|..] == UnavailableText)
  {
    SuccessReportShape(toon, JsonText(env, p, data), env.tok, env.fmt);
  }

  /**
   * A failing converter (exit status 1, standard error "bad input") yields an
   * error report containing "bad input" and the whole JSON text, with no
   * savings heading unless the JSON text itself contains one.
   */
  lemma ConverterFailureScenario(env: Environment, p: Printer, data: PyValue, toonFile: Result<string, string>)
    requires env.run(JsonText(env, p, data)) == Exited(1, "bad input", toonFile)
    ensures var r := ToonWithStats(env, p, data);
      var json := JsonText(env, p, data);
      && StartsWith(r, "```error\n")
      && Contains(r, "bad input")
      && EndsWith(r, "JSON OUTPUT:\n" + json + "\n```")
      && (Contains(r, SavingsHeading) ==> Contains(json, SavingsHeading))
  {
    var json := JsonText(env, p, data);
    CliFailureReport(env, p, data);
    var r := ErrorReport(CliFailedHeadline, "bad input", json);
    ErrorReportCarriesJson(CliFailedHeadline, "bad input", json);
    if Contains(r, SavingsHeading) {
      HeadlinesPlain();
      ErrorReportSavingsHeading(CliFailedHeadline, "bad input", json);
      BadInputPlain();
    }
  }
}

=== FILE: report.dfy ===
/**
 * The report `toon_with_stats` returns: a fenced TOON block followed by a
 * token-savings section, or a fenced error block that still carries the
 * JSON text.
 */
module Report {
  import opened Basics
  import opened Strings
  import Decimal
  import Tokens

  /**
   * What running the converter produced: a fault raised before or while
   * running it, or its exit status, its standard error and the result of
   * reading its output file.
   */
  datatype ProcessRun =
    | Crashed(fault: string)
    | Exited(returnCode: int, stderr: string, toonFile: Result<string, string>)

  /** The outcome the report is built from. */
  datatype Conversion = CliFailed(stderr: string) | Fault(message: string) | Converted(toon: string)

  /**
   * A non-zero exit is a converter failure; a fault while launching or while
   * reading the output file is a subprocess error; otherwise the output file
   * is the TOON text.
   */
  function Convert(run: ProcessRun): (c: Conversion)
    ensures c.Converted? <==> run.Exited? && run.returnCode == 0 && run.toonFile.Success?
    ensures c.Converted? ==> c.toon == run.toonFile.value
    ensures c.CliFailed? <==> run.Exited? && run.returnCode != 0
    ensures c.CliFailed? ==> c.stderr == run.stderr
    ensures c.Fault? ==> c.message == if run.Crashed? then run.fault else run.toonFile.error
  {
    match run
    case Crashed(fault) => Fault(fault)
    case Exited(code, stderr, toonFile) =>
      if code != 0 then CliFailed(stderr)
      else match toonFile
        case Failure(e) => Fault(e)
        case Success(toon) => Converted(toon)
  }

  const SavingsHeading: string := "# Token Savings"
  const CliFailedHeadline: string := "TOON CLI failed"
  const FaultHeadline: string := "TOON subprocess error"
  const UnavailableText: string := "\n\n# Token Savings\n(unavailable)\n"
  const JsonCountLabel: string := "\n\n# Token Savings\n- JSON tokens: "
  const ToonCountLabel: string := "- TOON tokens: "

  /**
   * The percentage of tokens saved, `100 * (1 - toon/json)`, exact. Only
   * defined for positive counts, so the division never has a zero divisor.
   */
  function Reduction(jsonTokens: int, toonTokens: int): (r: real)
    requires jsonTokens > 0 && toonTokens > 0
    ensures r * jsonTokens as real == 100.0 * (jsonTokens - toonTokens) as real
    ensures r < 100.0
    ensures r > 0.0 <==> toonTokens < jsonTokens
    ensures r == 0.0 <==> toonTokens == jsonTokens
  {
    var j, t := jsonTokens as real, toonTokens as real;
    var q := t / j;
    assert q * j == t;
    assert q > 0.0;
    assert q < 1.0 <==> t < j;
    100.0 * (1.0 - q)
  }

  /** The numbers the savings section shows, when it shows any. */
  datatype Savings = NoSavings | Savings(jsonTokens: int, toonTokens: int, reduction: real)

  /** Numbers are shown only when both counts are positive. */
  function ComputeSavings(jsonTokens: int, toonTokens: int): (s: Savings)
    ensures s.Savings? <==> jsonTokens > 0 && toonTokens > 0
    ensures s.Savings? ==> s.jsonTokens == jsonTokens && s.toonTokens == toonTokens
    ensures s.Savings? ==> s.reduction < 100.0 && (s.reduction > 0.0 <==> toonTokens < jsonTokens)
    ensures s.Savings? ==> s.reduction == Reduction(jsonTokens, toonTokens)
    ensures s.Savings? ==> s.reduction * (jsonTokens as real) == 100.0 * ((jsonTokens - toonTokens) as real)
  {
    if jsonTokens > 0 && toonTokens > 0 then Savings(jsonTokens, toonTokens, Reduction(jsonTokens, toonTokens))
    else NoSavings
  }

  /** The savings section; `fmt` renders the percentage as `{:.1f}` does. */
  function SavingsText(s: Savings, fmt: real -> string): string {
    match s
    case NoSavings => UnavailableText
    case Savings(j, t, r) =>
      JsonCountLabel + Decimal.IntToDecimal(j) + "\n"
      + ToonCountLabel + Decimal.IntToDecimal(t) + "\n"
      + SavedLine(fmt(r))
  }

  /** The last line of a section that lists numbers: the rendered reduction. */
  function SavedLine(percent: string): string {
    "- Saved: " + percent + "%\n"
  }

  /** The text before the first line break, and the text after it. */
  function SplitLine(s: string): (string, string) {
    if |s| == 0 then ("", "")
    else if s[0] == '\n' then ("", s[1..])
    else
      var (line, rest) := SplitLine(s[1..]);
      ([s[0]] + line, rest)
  }

  lemma {:induction false} SplitLineAt(a: string, b: string)
    requires '\n' !in a
    ensures SplitLine(a + "\n" + b) == (a, b)
  {
    if |a| > 0 {
      assert (a + "\n" + b)[1..] == a[1..] + "\n" + b;
      SplitLineAt(a[1..], b);
      assert [a[0]] + a[1..] == a;
    }
  }

  /** Reads the two counts back out of a savings section, if it lists them. */
  function ReadCounts(text: string): Option<(int, int)> {
    if !StartsWith(text, JsonCountLabel) then None
    else
      var (jsonLine, rest) := SplitLine(text[|JsonCountLabel|..]);
      if !StartsWith(rest, ToonCountLabel) then None
      else
        var (toonLine, _) := SplitLine(rest[|ToonCountLabel|..]);
        match (Decimal.ParseInt(jsonLine), Decimal.ParseInt(toonLine))
        case (Some(j), Some(t)) => Some((j, t))
        case _ => None
  }

  lemma NoNewlineInDecimal(n: int)
    ensures '\n' !in Decimal.IntToDecimal(n)
  {
    if n >= 0 {
      var s := Decimal.NatToDecimal(n);
      assert forall i :: 0 <= i < |s| ==> s[i] != '\n';
    } else {
      var s := Decimal.NatToDecimal(-n);
      assert forall i :: 0 <= i < |s| ==> s[i] != '\n';
      assert Decimal.IntToDecimal(n) == "-" + s;
    }
  }

  /** The reader takes the two count lines apart at their line breaks. */
  lemma ReadCountLines(j: string, t: string, tail: string)
    requires '\n' !in j && '\n' !in t
    requires Decimal.ParseInt(j).Some? && Decimal.ParseInt(t).Some?
    ensures ReadCounts(JsonCountLabel + j + "\n" + ToonCountLabel + t + "\n" + tail)
      == Some((Decimal.ParseInt(j).value, Decimal.ParseInt(t).value))
  {
    var afterJson := ToonCountLabel + t + "\n" + tail;
    var text := JsonCountLabel + j + "\n" + ToonCountLabel + t + "\n" + tail;
    assert text == JsonCountLabel + (j + "\n" + afterJson);
    assert text[|JsonCountLabel|..] == j + "\n" + afterJson;
    SplitLineAt(j, afterJson);
    assert afterJson[|ToonCountLabel|..] == t + "\n" + tail;
    SplitLineAt(t, tail);
  }

  /** A section that lists numbers reads back as the two counts it lists. */
  lemma ShownCountsReadBack(jsonTokens: int, toonTokens: int, fmt: real -> string)
    requires jsonTokens > 0 && toonTokens > 0
    ensures ReadCounts(SavingsText(ComputeSavings(jsonTokens, toonTokens), fmt)) == Some((jsonTokens, toonTokens))
  {
    var s := ComputeSavings(jsonTokens, toonTokens);
    var j, t := Decimal.IntToDecimal(jsonTokens), Decimal.IntToDecimal(toonTokens);
    NoNewlineInDecimal(jsonTokens);
    NoNewlineInDecimal(toonTokens);
    Decimal.ParseIntToDecimal(jsonTokens);
    Decimal.ParseIntToDecimal(toonTokens);
    var tail := SavedLine(fmt(s.reduction));
    assert SavingsText(s, fmt) == JsonCountLabel + j + "\n" + ToonCountLabel + t + "\n" + tail;
    ReadCountLines(j, t, tail);
  }

  /** A section that lists numbers ends with the reduction `100 * (1 - toon / json)`, rendered. */
  lemma EndsWithSavedLine(jsonTokens: int, toonTokens: int, fmt: real -> string)
    requires jsonTokens > 0 && toonTokens > 0
    ensures EndsWith(SavingsText(ComputeSavings(jsonTokens, toonTokens), fmt), SavedLine(fmt(Reduction(jsonTokens, toonTokens))))
  {
    var text := SavingsText(ComputeSavings(jsonTokens, toonTokens), fmt);
    var line := SavedLine(fmt(Reduction(jsonTokens, toonTokens)));
    var head := JsonCountLabel + Decimal.IntToDecimal(jsonTokens) + "\n"
      + ToonCountLabel + Decimal.IntToDecimal(toonTokens) + "\n";
    assert text == head + line;
    assert text[|text| - |line|..] == line;
  }

  lemma UnavailableReadsNothing()
    ensures ReadCounts(UnavailableText) == None
  {
    assert UnavailableText[18] != JsonCountLabel[18];
  }

  /**
   * The savings section lists both counts exactly when both are positive,
   * and a reader recovers them from it; otherwise it is the fixed
   * "(unavailable)" section, which shows no numbers.
   */
  lemma SavingsListsCounts(jsonTokens: int, toonTokens: int, fmt: real -> string)
    ensures var text := SavingsText(ComputeSavings(jsonTokens, toonTokens), fmt);
      && (jsonTokens > 0 && toonTokens > 0 ==> ReadCounts(text) == Some((jsonTokens, toonTokens)))
      && (jsonTokens > 0 && toonTokens > 0 ==> EndsWith(text, SavedLine(fmt(Reduction(jsonTokens, toonTokens)))))
      && (!(jsonTokens > 0 && toonTokens > 0) ==> text == UnavailableText && ReadCounts(text) == None)
  {
    if jsonTokens > 0 && toonTokens > 0 {
      ShownCountsReadBack(jsonTokens, toonTokens, fmt);
      EndsWithSavedLine(jsonTokens, toonTokens, fmt);
    } else {
      UnavailableReadsNothing();
    }
  }

  /**
   * The report for a conversion outcome: the TOON text with its savings, or
   * an error block naming what failed and carrying the JSON text.
   */
  function Render(c: Conversion, json: string, tok: Tokens.Tokenizer, fmt: real -> string): (r: string)
    ensures |r| > 0
    ensures c.Converted? <==> StartsWith(r, "```toon\n")
    ensures !c.Converted? <==> StartsWith(r, "```error\n")
    ensures c.CliFailed? ==> StartsWith(r, "```error\n" + CliFailedHeadline + ":\n" + c.stderr + "\n\n")
    ensures c.Fault? ==> StartsWith(r, "```error\n" + FaultHeadline + ":\n" + c.message + "\n\n")
  {
    match c
    case CliFailed(stderr) => ErrorReport(CliFailedHeadline, stderr, json)
    case Fault(message) => ErrorReport(FaultHeadline, message, json)
    case Converted(toon) =>
      var savings := ComputeSavings(Tokens.CountTokens(tok, json), Tokens.CountTokens(tok, toon));
      var r := "```toon\n" + toon + "\n```" + SavingsText(savings, fmt);
      assert r[..8] == "```toon\n";
      assert r[3] != "```error\n"[3];
      r
  }

  function ErrorReport(headline: string, detail: string, json: string): (r: string)
    ensures StartsWith(r, "```error\n")
    ensures !StartsWith(r, "```toon\n")
    ensures StartsWith(r, "```error\n" + headline + ":\n" + detail + "\n\n")
  {
    var head := "```error\n" + headline + ":\n" + detail + "\n\n";
    var r := "```error\n" + headline + ":\n" + detail + "\n\n" + "JSON OUTPUT:\n" + json + "\n" + "```";
    assert r == head + ("JSON OUTPUT:\n" + json + "\n" + "```");
    assert r[..|head|] == head;
    assert r[..9] == "```error\n";
    assert r[3] != "```toon\n"[3];
    r
  }

  /**
   * An error report carries the failure text and ends with the complete
   * JSON text and the closing fence.
   */
  lemma ErrorReportCarriesJson(headline: string, detail: string, json: string)
    ensures Contains(ErrorReport(headline, detail, json), detail)
    ensures EndsWith(ErrorReport(headline, detail, json), "JSON OUTPUT:\n" + json + "\n```")
  {
    var r := ErrorReport(headline, detail, json);
    var start := |"```error\n" + headline + ":\n"|;
    assert r[start..start + |detail|] == detail;
    assert OccursAt(r, detail, start);
    assert r[|r| - |"JSON OUTPUT:\n" + json + "\n```"|..] == "JSON OUTPUT:\n" + json + "\n```";
  }

  /** Both headlines are single lines without a '#'. */
  lemma HeadlinesPlain()
    ensures '\n' !in CliFailedHeadline && '#' !in CliFailedHeadline
    ensures '\n' !in FaultHeadline && '#' !in FaultHeadline
  {
  }

  /** The fixed lines of an error report do not contain the savings heading. */
  lemma FixedLinesPlain()
    ensures !Contains("```error", SavingsHeading)
    ensures !Contains("", SavingsHeading)
    ensures !Contains("JSON OUTPUT:", SavingsHeading)
    ensures !Contains("```", SavingsHeading)
  {
    NotContainsWithoutFirstChar("```error", SavingsHeading);
    NotContainsWithoutFirstChar("JSON OUTPUT:", SavingsHeading);
  }

  /** The error report cut at its line breaks outside the failure and JSON texts. */
  lemma ErrorReportLines(headline: string, detail: string, json: string)
    ensures ErrorReport(headline, detail, json) ==
      "```error" + "\n" + ((headline + ":") + "\n" + (detail + "\n" + ("" + "\n" + ("JSON OUTPUT:" + "\n" + (json + "\n" + "```")))))
  {
  }

  /**
   * An error report contains the savings heading only where the failure
   * text or the JSON text does: the fixed parts never produce it.
   */
  lemma ErrorReportSavingsHeading(headline: string, detail: string, json: string)
    requires '\n' !in headline && '#' !in headline
    requires Contains(ErrorReport(headline, detail, json), SavingsHeading)
    ensures Contains(detail, SavingsHeading) || Contains(json, SavingsHeading)
  {
    var pat := SavingsHeading;
    var r5 := json + "\n" + "```";
    var r4 := "JSON OUTPUT:" + "\n" + r5;
    var r3 := "" + "\n" + r4;
    var r2 := detail + "\n" + r3;
    var r1 := (headline + ":") + "\n" + r2;
    ErrorReportLines(headline, detail, json);
    FixedLinesPlain();
    NotContainsWithoutFirstChar(headline + ":", pat);
    ContainsAcrossNewline("```error", r1, pat);
    ContainsAcrossNewline(headline + ":", r2, pat);
    if !Contains(detail, pat) {
      ContainsAcrossNewline(detail, r3, pat);
      ContainsAcrossNewline("", r4, pat);
      ContainsAcrossNewline("JSON OUTPUT:", r5, pat);
      ContainsAcrossNewline(json, "```", pat);
    }
  }

  /**
   * A success report opens with the TOON text, fenced, verbatim. What follows
   * lists both token counts when both are positive, and is otherwise the
   * "(unavailable)" section.
   */
  lemma SuccessReportShape(toon: string, json: string, tok: Tokens.Tokenizer, fmt: real -> string)
    ensures var r := Render(Converted(toon), json, tok, fmt);
      var block := "```toon\n" + toon + "\n```";
      var j, t := Tokens.CountTokens(tok, json), Tokens.CountTokens(tok, toon);
      && StartsWith(r, block)
      && (j > 0 && t > 0 ==> ReadCounts(r[|block|..]) == Some((j, t)))
      && (j > 0 && t > 0 ==> EndsWith(r, SavedLine(fmt(Reduction(j, t)))))
      && (!(j > 0 && t > 0) ==> r[|block|..] == UnavailableText)
  {
    var r := Render(Converted(toon), json, tok, fmt);
    var block := "```toon\n" + toon + "\n```";
    var j, t := Tokens.CountTokens(tok, json), Tokens.CountTokens(tok, toon);
    var text := SavingsText(ComputeSavings(j, t), fmt);
    assert r == block + text;
    assert r[..|block|] == block && r[|block|..] == text;
    SavingsListsCounts(j, t, fmt);
    if j > 0 && t > 0 {
      var line := SavedLine(fmt(Reduction(j, t)));
      assert text[|text| - |line|..] == line;
      assert r[|r| - |line|..] == line;
    }
  }

  /** Without a tokenizer a success report ends with "(unavailable)" and shows no numbers. */
  lemma NoTokenizerUnavailable(toon: string, json: string, fmt: real -> string)
    ensures EndsWith(Render(Converted(toon), json, Tokens.NoTokenizer, fmt), UnavailableText)
  {
    SuccessReportShape(toon, json, Tokens.NoTokenizer, fmt);
  }
}

=== FILE: seqs.dfy ===
/** Mapping a function over a sequence, and what that does to its multiset. */
module Seqs {

  function Map<A, B>(f: A -> B, xs: seq<A>): (r: seq<B>)
    ensures |r| == |xs|
  {
    seq(|xs|, i requires 0 <= i < |xs| => f(xs[i]))
  }

  lemma MapConcat<A, B>(f: A -> B, a: seq<A>, b: seq<A>)
    ensures Map(f, a + b) == Map(f, a) + Map(f, b)
  {
  }

  /** Taking one occurrence of `ys[j]` out of `ys` takes it out of the multiset. */
  lemma RemoveAt<A>(ys: seq<A>, j: int)
    requires 0 <= j < |ys|
    ensures ys == ys[..j] + ([ys[j]] + ys[j + 1..])
    ensures multiset(ys[..j] + ys[j + 1..]) == multiset(ys) - multiset{ys[j]}
  {
    assert ys == ys[..j] + [ys[j]] + ys[j + 1..];
  }

  /** Mapping `ys` maps `ys[j]` once and the rest around it. */
  lemma MapAt<A, B>(f: A -> B, ys: seq<A>, j: int)
    requires 0 <= j < |ys|
    ensures multiset(Map(f, ys)) == multiset{f(ys[j])} + multiset(Map(f, ys[..j] + ys[j + 1..]))
  {
    var pre, post := ys[..j], ys[j + 1..];
    RemoveAt(ys, j);
    MapConcat(f, pre, [ys[j]] + post);
    MapConcat(f, [ys[j]], post);
    MapConcat(f, pre, post);
    assert Map(f, [ys[j]]) == [f(ys[j])];
  }

  /** Mapping two orderings of the same elements gives two orderings of the same results. */
  lemma {:induction false} MapPermutation<A, B>(f: A -> B, xs: seq<A>, ys: seq<A>)
    requires multiset(xs) == multiset(ys)
    ensures multiset(Map(f, xs)) == multiset(Map(f, ys))
  {
    if |xs| == 0 {
      assert |ys| == |multiset(ys)| == 0;
    } else {
      var x := xs[0];
      assert x in multiset(ys);
      var j :| 0 <= j < |ys| && ys[j] == x;
      RemoveAt(ys, j);
      assert xs == [x] + xs[1..];
      MapPermutation(f, xs[1..], ys[..j] + ys[j + 1..]);
      MapAt(f, ys, j);
      MapAt(f, xs, 0);
      assert xs[..0] + xs[1..] == xs[1..];
    }
  }
}

=== FILE: sorting.dfy ===
/**
 * Python's `sorted(xs, key=k)` for string-valued keys: a stable sort, so
 * elements with equal keys keep their input order.
 */
module Sorting {
  import opened Strings

  /** Keys are non-decreasing from left to right. */
  predicate SortedBy<T>(key: T -> string, s: seq<T>) {
    forall i, j :: 0 <= i < j < |s| ==> Le(key(s[i]), key(s[j]))
  }

  /** No two different elements of `s` share a key. */
  ghost predicate KeysDistinct<T>(key: T -> string, s: seq<T>) {
    forall x, y :: x in s && y in s && key(x) == key(y) ==> x == y
  }

  /** The elements of `s` whose key is `k`, in their order in `s`. */
  function WithKey<T>(key: T -> string, s: seq<T>, k: string): seq<T> {
    if |s| == 0 then []
    else (if key(s[0]) == k then [s[0]] else []) + WithKey(key, s[1..], k)
  }

  /** Places `x` before the first element whose key is not below its own. */
  function Insert<T>(key: T -> string, x: T, ys: seq<T>): (r: seq<T>)
    ensures multiset(r) == multiset(ys) + multiset{x}
  {
    if |ys| == 0 then [x]
    else if Le(key(x), key(ys[0])) then [x] + ys
    else
      assert ys == [ys[0]] + ys[1..];
      [ys[0]] + Insert(key, x, ys[1..])
  }

  /** Insertion sort that inserts each element in front of the sorted rest. */
  function SortBy<T>(key: T -> string, xs: seq<T>): (r: seq<T>)
    ensures multiset(r) == multiset(xs)
    ensures SortedBy(key, r)
  {
    if |xs| == 0 then []
    else
      var rest := SortBy(key, xs[1..]);
      InsertSorted(key, xs[0], rest);
      assert xs == [xs[0]] + xs[1..];
      Insert(key, xs[0], rest)
  }

  /** Sorting two elements swaps them exactly when the second key is strictly below the first. */
  lemma SortTwo<T>(key: T -> string, a: T, b: T)
    ensures SortBy(key, [a, b]) == if Le(key(a), key(b)) then [a, b] else [b, a]
  {
    assert [a, b][1..] == [b];
    assert [b][1..] == [];
    assert SortBy(key, [b]) == [b];
  }

  /** An element whose key is at most the first key of a sorted sequence can go in front. */
  lemma ConsSorted<T>(key: T -> string, x: T, ys: seq<T>)
    requires SortedBy(key, ys)
    requires forall z :: z in ys ==> Le(key(x), key(z))
    ensures SortedBy(key, [x] + ys)
  {
    var r := [x] + ys;
    forall i, j | 0 <= i < j < |r|
      ensures Le(key(r[i]), key(r[j]))
    {
      assert r[j] == ys[j - 1];
      if i > 0 {
        assert r[i] == ys[i - 1];
      }
    }
  }

  lemma {:induction false} InsertSorted<T>(key: T -> string, x: T, ys: seq<T>)
    requires SortedBy(key, ys)
    ensures SortedBy(key, Insert(key, x, ys))
  {
    if |ys| == 0 {
    } else if Le(key(x), key(ys[0])) {
      forall z | z in ys
        ensures Le(key(x), key(z))
      {
        HeadKeyIsLeast(key, ys, z);
        LeTransitive(key(x), key(ys[0]), key(z));
      }
      ConsSorted(key, x, ys);
    } else {
      LeTotal(key(x), key(ys[0]));
      var tail := ys[1..];
      assert SortedBy(key, tail);
      InsertSorted(key, x, tail);
      var rest := Insert(key, x, tail);
      forall z | z in rest
        ensures Le(key(ys[0]), key(z))
      {
        assert z in multiset(rest);
        if z != x {
          assert z in ys;
          HeadKeyIsLeast(key, ys, z);
        }
      }
      ConsSorted(key, ys[0], rest);
    }
  }

  /** `WithKey` of a sequence with `a` in front. */
  lemma WithKeyCons<T>(key: T -> string, a: T, s: seq<T>, k: string)
    ensures WithKey(key, [a] + s, k) == (if key(a) == k then [a] else []) + WithKey(key, s, k)
  {
    assert ([a] + s)[1..] == s;
  }

  /** Inserting keeps every key's elements in the order they had with `x` in front. */
  lemma {:induction false} InsertStable<T>(key: T -> string, x: T, ys: seq<T>, k: string)
    ensures WithKey(key, Insert(key, x, ys), k) == WithKey(key, [x] + ys, k)
  {
    if |ys| > 0 && !Le(key(x), key(ys[0])) {
      var y, tail := ys[0], ys[1..];
      var hx := if key(x) == k then [x] else [];
      var hy := if key(y) == k then [y] else [];
      assert ys == [y] + tail;
      assert Insert(key, x, ys) == [y] + Insert(key, x, tail);
      InsertStable(key, x, tail, k);
      WithKeyCons(key, y, Insert(key, x, tail), k);
      WithKeyCons(key, x, tail, k);
      WithKeyCons(key, x, ys, k);
      WithKeyCons(key, y, tail, k);
      LeReflexive(key(x));
      assert hx == [] || hy == [];
      assert hy + (hx + WithKey(key, tail, k)) == hx + (hy + WithKey(key, tail, k));
    } else {
      assert Insert(key, x, ys) == [x] + ys;
    }
  }

  /** The sort is stable: for every key, its elements come out in input order. */
  lemma {:induction false} SortByStable<T>(key: T -> string, xs: seq<T>, k: string)
    ensures WithKey(key, SortBy(key, xs), k) == WithKey(key, xs, k)
  {
    if |xs| > 0 {
      var rest := SortBy(key, xs[1..]);
      SortByStable(key, xs[1..], k);
      InsertStable(key, xs[0], rest, k);
      assert ([xs[0]] + rest)[1..] == rest;
    }
  }

  /** The first element of a sorted sequence has the least key. */
  lemma HeadKeyIsLeast<T>(key: T -> string, s: seq<T>, x: T)
    requires SortedBy(key, s) && x in s
    ensures Le(key(s[0]), key(x))
  {
    var j :| 0 <= j < |s| && s[j] == x;
    if j == 0 {
      LeReflexive(key(x));
    }
  }

  lemma SortedTail<T>(key: T -> string, s: seq<T>)
    requires SortedBy(key, s) && |s| > 0
    ensures SortedBy(key, s[1..])
    ensures multiset(s[1..]) == multiset(s) - multiset{s[0]}
  {
    assert s == [s[0]] + s[1..];
  }

  /** Two sorted orderings of the same elements agree when no key is shared. */
  lemma {:induction false} SortedUnique<T>(key: T -> string, a: seq<T>, b: seq<T>)
    requires SortedBy(key, a) && SortedBy(key, b)
    requires multiset(a) == multiset(b)
    requires KeysDistinct(key, a)
    ensures a == b
  {
    assert |a| == |multiset(a)| == |multiset(b)| == |b|;
    if |a| > 0 {
      assert a[0] in multiset(b) && b[0] in multiset(a);
      HeadKeyIsLeast(key, b, a[0]);
      HeadKeyIsLeast(key, a, b[0]);
      LeAntisymmetric(key(a[0]), key(b[0]));
      assert a[0] in a;
      SortedTail(key, a);
      SortedTail(key, b);
      assert KeysDistinct(key, a[1..]) by {
        forall x | x in a[1..]
          ensures x in a
        {
        }
      }
      SortedUnique(key, a[1..], b[1..]);
      assert a == [a[0]] + a[1..];
      assert b == [b[0]] + b[1..];
    }
  }

  /**
   * When no two elements share a key, the result does not depend on the
   * order in which the elements are presented.
   */
  lemma SortByOrderIndependent<T>(key: T -> string, xs: seq<T>, ys: seq<T>)
    requires multiset(xs) == multiset(ys)
    requires KeysDistinct(key, xs)
    ensures SortBy(key, xs) == SortBy(key, ys)
  {
    var a := SortBy(key, xs);
    forall x | x in a
      ensures x in xs
    {
      assert x in multiset(a);
    }
    SortedUnique(key, a, SortBy(key, ys));
  }
}

=== FILE: strings.dfy ===
/** Facts about text: substring search, and the ordering Python uses to compare `str` values. */
module Strings {

  /** `pat` occurs somewhere inside `s`. */
  predicate Contains(s: string, pat: string) {
    exists i | 0 <= i <= |s| - |pat| :: OccursAt(s, pat, i)
  }

  /** `pat` occurs in `s` starting at index `i`. */
  predicate OccursAt(s: string, pat: string, i: int) {
    0 <= i && i + |pat| <= |s| && s[i..i + |pat|] == pat
  }

  predicate StartsWith(s: string, prefix: string) {
    |prefix| <= |s| && s[..|prefix|] == prefix
  }

  predicate EndsWith(s: string, suffix: string) {
    |suffix| <= |s| && s[|s| - |suffix|..] == suffix
  }

  /** A non-empty pattern cannot occur in a text that lacks its first character. */
  lemma NotContainsWithoutFirstChar(s: string, pat: string)
    requires |pat| > 0 && pat[0] !in s
    ensures !Contains(s, pat)
  {
    forall i | 0 <= i && i + |pat| <= |s|
      ensures !OccursAt(s, pat, i)
    {
      assert s[i..i + |pat|][0] == s[i];
    }
  }

  /**
   * A pattern without a line break that occurs in `a + "\n" + b` lies wholly
   * inside `a` or wholly inside `b`: it cannot straddle the break.
   */
  lemma ContainsAcrossNewline(a: string, b: string, pat: string)
    requires '\n' !in pat
    requires Contains(a + "\n" + b, pat)
    ensures Contains(a, pat) || Contains(b, pat)
  {
    var s := a + "\n" + b;
    var i :| 0 <= i <= |s| - |pat| && OccursAt(s, pat, i);
    assert s[i..i + |pat|] == pat;
    forall k | i <= k < i + |pat|
      ensures s[k] != '\n'
    {
      assert s[k] == s[i..i + |pat|][k - i];
    }
    assert s[|a|] == '\n';
    if i + |pat| <= |a| {
      assert a[i..i + |pat|] == s[i..i + |pat|];
      assert OccursAt(a, pat, i);
    } else if i > |a| {
      var j := i - |a| - 1;
      assert b[j..j + |pat|] == s[i..i + |pat|];
      assert OccursAt(b, pat, j);
    }
    // No other case: the occurrence cannot cover the line break at index |a|.
  }

  /**
   * Python's `<=` on `str`: lexicographic comparison by code point, where a
   * proper prefix sorts first.
   */
  predicate Le(a: string, b: string) {
    |a| == 0 || (|b| > 0 && (a[0] < b[0] || (a[0] == b[0] && Le(a[1..], b[1..]))))
  }

  lemma {:induction false} LeReflexive(a: string)
    ensures Le(a, a)
  {
    if |a| > 0 {
      LeReflexive(a[1..]);
    }
  }

  lemma {:induction false} LeTotal(a: string, b: string)
    ensures Le(a, b) || Le(b, a)
  {
    if |a| > 0 && |b| > 0 && a[0] == b[0] {
      LeTotal(a[1..], b[1..]);
    }
  }

  lemma {:induction false} LeAntisymmetric(a: string, b: string)
    requires Le(a, b) && Le(b, a)
    ensures a == b
  {
    if |a| > 0 && |b| > 0 {
      LeAntisymmetric(a[1..], b[1..]);
      assert a == [a[0]] + a[1..];
      assert b == [b[0]] + b[1..];
    }
  }

  lemma {:induction false} LeTransitive(a: string, b: string, c: string)
    requires Le(a, b) && Le(b, c)
    ensures Le(a, c)
  {
    if |a| > 0 && |b| > 0 && |c| > 0 && a[0] == b[0] && b[0] == c[0] {
      LeTransitive(a[1..], b[1..], c[1..]);
    }
  }

  /** A proper prefix sorts before any extension of it, and never after. */
  lemma {:induction false} LePrefix(a: string, b: string)
    ensures Le(a, a + b)
    ensures |b| > 0 ==> !Le(a + b, a)
  {
    if |a| > 0 {
      assert (a + b)[0] == a[0] && (a + b)[1..] == a[1..] + b;
      LePrefix(a[1..], b);
    }
  }

  /**
   * Past a common prefix, the first differing code point decides the order.
   */
  lemma {:induction false} LeFirstDifference(a: string, b: string, i: nat)
    requires i < |a| && i < |b| && a[..i] == b[..i] && a[i] != b[i]
    ensures Le(a, b) <==> a[i] < b[i]
  {
    if i > 0 {
      assert a[0] == a[..i][0] == b[..i][0] == b[0];
      assert a[1..][..i - 1] == a[..i][1..] == b[..i][1..] == b[1..][..i - 1];
      LeFirstDifference(a[1..], b[1..], i - 1);
    }
  }
}

=== FILE: tokens.dfy ===
/** `count_tokens`: a token count, or -1 when no count is available. */
module Tokens {
  import opened Basics

  /**
   * The process-wide tokenizer, chosen once at start-up. `encode` gives the
   * token list of a text, or `None` where the library raises.
   */
  datatype Tokenizer = NoTokenizer | Loaded(encode: string -> Option<seq<int>>)

  /** The sentinel meaning "no count". */
  const Unavailable: int := -1

  function CountTokens(t: Tokenizer, text: string): (n: int)
    ensures n == Unavailable || n >= 0
    ensures n == Unavailable <==> t.NoTokenizer? || t.encode(text).None?
    ensures n >= 0 ==> n == |t.encode(text).value|
  {
    match t
    case NoTokenizer => Unavailable
    case Loaded(encode) =>
      match encode(text)
      case None => Unavailable
      case Some(tokens) => |tokens|
  }
}

=== FILE: values.dfy ===
/**
 * The two value universes of the normalizer: arbitrary Python values going
 * in, JSON-safe values coming out, and Python's `str` on both.
 */
module Values {
  import opened Dicts
  import Decimal

  /**
   * A finite Python value tree. Sequences keep the order Python iterates
   * them in: a dict's items in insertion order, a set's elements in whatever
   * order the interpreter happens to visit them.
   */
  datatype PyValue =
    | Dict(items: seq<(PyValue, PyValue)>)
    | List(elems: seq<PyValue>)
    | Tuple(elems: seq<PyValue>)
    | Set(elems: seq<PyValue>)
      /** An object whose `__dict__` is a dict: its attributes by name. */
    | Obj(attrs: seq<(string, PyValue)>)
    | Str(s: string)
    | Int(n: int)
    | Bool(b: bool)
    | NoneValue
      /**
       * Anything else: no `__dict__` and rejected by `json.dumps`; `text` is
       * its `str`. A class is one too: its `__dict__` is a mapping proxy, not
       * a dict, and normalizes to the `str` of that proxy, which is `text`.
       */
    | Opaque(text: string)

  /** A value `json.dumps` accepts: dicts with string keys, lists and scalars. */
  datatype JsonValue =
    | JObject(fields: seq<(string, JsonValue)>)
    | JArray(elems: seq<JsonValue>)
    | JString(s: string)
    | JInt(n: int)
    | JBool(b: bool)
    | JNull

  /**
   * Python's `str` where this model does not spell it out: the rendering of
   * a dict or list, and of a dict key that is a container or an object.
   */
  datatype Printer = Printer(containerStr: JsonValue -> string, keyStr: PyValue -> string)

  /** `str(x)` for a JSON-safe value. */
  function Show(p: Printer, x: JsonValue): string {
    match x
    case JString(s) => s
    case JInt(n) => Decimal.IntToDecimal(n)
    case JBool(b) => if b then "True" else "False"
    case JNull => "None"
    case _ => p.containerStr(x)
  }

  /** `str(k)` for a dict key. */
  function KeyStr(p: Printer, k: PyValue): string {
    match k
    case Str(s) => s
    case Int(n) => Decimal.IntToDecimal(n)
    case Bool(b) => if b then "True" else "False"
    case NoneValue => "None"
    case Opaque(text) => text
    case _ => p.keyStr(k)
  }

  /** Every object, at every depth, has each key once. */
  predicate WellFormed(x: JsonValue) {
    match x
    case JObject(fields) =>
      DistinctKeys(fields) && forall i :: 0 <= i < |fields| ==> WellFormed(fields[i].1)
    case JArray(elems) => forall i :: 0 <= i < |elems| ==> WellFormed(elems[i])
    case _ => true
  }

  /** A JSON-safe value seen as the Python value it is. */
  function Embed(x: JsonValue): PyValue {
    match x
    case JObject(fields) => Dict(seq(|fields|, i requires 0 <= i < |fields| => (Str(fields[i].0), Embed(fields[i].1))))
    case JArray(elems) => List(seq(|elems|, i requires 0 <= i < |elems| => Embed(elems[i])))
    case JString(s) => Str(s)
    case JInt(n) => Int(n)
    case JBool(b) => Bool(b)
    case JNull => NoneValue
  }
}
